=== FILE: README.md ===
# Registration tuner: iteration state and tube overlays, in Dafny

TubeTK's registration tuner launches an image-to-tubes rigid registration,
reads back its optimisation progression (one row per iteration: the six
rigid-transform parameters and the cost), and lets a researcher step through
the iterations, drawing the transformed tube tree of the current iteration
together with a fading trail of the three before it.

This project models the non-graphical core of that tool:

- **Iteration state** (`TunerLogic`): the `iteration` and
  `number_of_iterations` properties of `RegistrationTunerLogic`, with their
  change-only signals, and the tail of `run_analysis` that stores the loaded
  progression and jumps to its last iteration.  Calls are pure functions
  returning the new state, the signals emitted, and the exception raised, if
  any.
- **Parameter choice** (`Progression`): the parameters for an iteration are
  all zeros without a progression, otherwise the row at that *position*
  (numpy indexing, negative indices counting from the end).
- **Transform order** (`MeshOps`): the operations applied to a tubes mesh —
  move the rotation center to the origin, rotate about world X, Y, Z, move
  back plus the translation — as a list of abstract operations, with a
  partial point semantics that needs no trigonometry (translations are exact;
  a rotation fixes the points on its axis, and everything when its angle is 0).
- **Trail window and overlay cache** (`TubesOverlay`): `add_tubes` with
  `memory = 4`, its range guard, its per-iteration cache `tubes_circles`, and
  the eviction loop.
- **Wiring** (`Session`): the logic object with the main window's cache, drawn
  once at start-up, after which every `iteration_changed` runs `add_tubes` on
  the new state.
- **Files** (`Lifecycle`): the constructor's choice between the input tubes
  file and a subsampled temporary copy, `initialize`, and the cleanup rule of
  `close`, over a file system modelled as a set of paths.
- **Video sweep** (`Video`): `make_video`'s loop over iterations 0..count and
  its frame names `frame_NNNN.png`.

The `.dfy` files form one Dafny program, with one module per concern and no `include`.

## Behaviour of the code the model keeps

- The logic object's `set_iteration` rejects only values above the count;
  negative values are accepted.  Its `set_number_of_iterations` never clamps
  the current iteration.  (In the running tool the iteration widget's spin
  box and slider feed clamped values back; see "Left out".)
- When a run's table is empty, `run_analysis` has already replaced the
  stored progression (and tubes center) before `progression[-1]` raises, so
  the previous progression is lost.
- Parameters are looked up by row position, not by the `Iteration` field;
  the two agree only when the table is dense (rows numbered 0, 1, 2, ...).
- Eviction tests membership in the window, not the range guard, so an entry
  inside the window but beyond a lowered count survives.
- After the start-up call at line 432, `add_tubes` runs only on
  `iteration_changed`.  A run whose last iteration
  equals the iteration already shown emits no such signal, so the drawn
  overlays keep the previous progression's parameters.
- `close` is not idempotent: a second call raises because the video-frame
  directory is already gone.  It deletes the subsampled file only when the
  configuration asked for subsampling, so the user's input file is never
  deleted.
- A constructor that fails after creating the temporary subsampling file
  (a missing subsampler entry, or a non-zero exit code) leaves that file on
  disk: nothing removes it on the error path.
- The source is Python 2 with PyQt4: `dict.items()` returns a copy, so
  popping entries during the eviction loop is safe.  An exception raised in a
  slot is printed by PyQt4 and does not reach the code that emitted the
  signal, so a failing `add_tubes` leaves the setter's state change in place.

## Model

| member | source | states |
|---|---|---|
| Progression.SelectParameters | Applications/RegisterImageToTubesUsingRigidTransform/RegisterImageToTubesUsingRigidTransformTuner.py:507-510 | Without a progression the parameters are the zero 6-tuple; with one, the row at position `it`; for `it >= 0` it raises IndexError exactly when `it` is at or past the row count |
| Progression.DensePositionIsIteration | Applications/RegisterImageToTubesUsingRigidTransform/RegisterImageToTubesUsingRigidTransformTuner.py:507-508 | In a dense table, the lookup by position finds the same row as a search by `Iteration` field, and fails exactly when no row has that iteration |
| Progression.PositionIsNotIteration | Applications/RegisterImageToTubesUsingRigidTransform/RegisterImageToTubesUsingRigidTransformTuner.py:508 | With a gap in the iteration numbers, position 1 returns the parameters of iteration 2 although no row holds iteration 1 |
| TunerLogic.SetIteration | Applications/RegisterImageToTubesUsingRigidTransform/RegisterImageToTubesUsingRigidTransformTuner.py:83-89 | Raises ValueError exactly when the value exceeds the count, and then changes nothing and emits nothing; otherwise only the iteration changes, and one `iteration_changed(value)` is emitted if and only if the value differs |
| TunerLogic.SetNumberOfIterations | Applications/RegisterImageToTubesUsingRigidTransform/RegisterImageToTubesUsingRigidTransformTuner.py:102-105 | Never raises; only the count changes, iteration and progression are untouched; `number_of_iterations_changed(value)` is emitted if and only if the value differs |
| TunerLogic.LoadTrace | Applications/RegisterImageToTubesUsingRigidTransform/RegisterImageToTubesUsingRigidTransformTuner.py:148-156 | The table and center are stored; an empty table raises IndexError with count and iteration unchanged and no signal; otherwise count and iteration both become the last row's `Iteration`, with the signals count-changed (if it changed), analysis-run, iteration-changed (if it changed), in that order |
| TunerLogic.IterationChangedComesLast | Applications/RegisterImageToTubesUsingRigidTransform/RegisterImageToTubesUsingRigidTransformTuner.py:154-156 | An iteration-changed signal is always the last one a call emits and carries the final iteration, and it is emitted exactly when the iteration changed |
| TunerLogic.ListenerStaysInSync | Applications/RegisterImageToTubesUsingRigidTransform/RegisterImageToTubesUsingRigidTransformTuner.py:83-105 | For any sequence of calls, a subscriber that starts in sync and applies the signals in order ends in sync with iteration and count, and every signal it receives is a real change |
| TunerLogic.SetIterationIdempotent | Applications/RegisterImageToTubesUsingRigidTransform/RegisterImageToTubesUsingRigidTransformTuner.py:87-89 | Repeating an accepted `set_iteration` with the same value changes nothing and emits nothing |
| TunerLogic.SetNumberOfIterationsIdempotent | Applications/RegisterImageToTubesUsingRigidTransform/RegisterImageToTubesUsingRigidTransformTuner.py:102-105 | Repeating `set_number_of_iterations` with the same value changes nothing and emits nothing |
| TunerLogic.LoadTraceTwice | Applications/RegisterImageToTubesUsingRigidTransform/RegisterImageToTubesUsingRigidTransformTuner.py:154-156 | Loading the same non-empty table again leaves the state as it was and only emits analysis-run |
| TunerLogic.IterationBoundKept | Applications/RegisterImageToTubesUsingRigidTransform/RegisterImageToTubesUsingRigidTransformTuner.py:85-89 | `set_iteration` and loading a trace keep the iteration at or below the count, whether or not they raise |
| TunerLogic.CountChangeDoesNotClamp | Applications/RegisterImageToTubesUsingRigidTransform/RegisterImageToTubesUsingRigidTransformTuner.py:102-105 | Lowering the count below the current iteration leaves the iteration beyond the count |
| TunerLogic.NegativeIterationAccepted | Applications/RegisterImageToTubesUsingRigidTransform/RegisterImageToTubesUsingRigidTransformTuner.py:85-89 | A negative iteration passes the guard, is stored, and is announced |
| TunerLogic.EmptyLoadDiscardsPrevious | Applications/RegisterImageToTubesUsingRigidTransform/RegisterImageToTubesUsingRigidTransformTuner.py:149-154 | Loading an empty table raises IndexError after the previous non-empty progression has been replaced by the empty one |
| MeshOps.TubesOps | Applications/RegisterImageToTubesUsingRigidTransform/RegisterImageToTubesUsingRigidTransformTuner.py:528-542 | Five operations: first a translation taking the rotation center to the origin, then rotations about X, Y, Z by the first three parameters in that order, then a translation; the two translations add up to the translation parameters |
| MeshOps.MarkerFollowsRotationCenter | Applications/RegisterImageToTubesUsingRigidTransform/RegisterImageToTubesUsingRigidTransformTuner.py:528-556 | For every parameter set, the tubes' rotation center is taken to center plus translation, which is exactly where the center marker of that iteration is drawn |
| MeshOps.PureTranslationIgnoresCenter | Applications/RegisterImageToTubesUsingRigidTransform/RegisterImageToTubesUsingRigidTransformTuner.py:530-542 | With zero rotation angles every point moves by exactly the translation parameters, whatever the rotation center |
| MeshOps.ZeroParamsAreIdentity | Applications/RegisterImageToTubesUsingRigidTransform/RegisterImageToTubesUsingRigidTransformTuner.py:528-542 | All-zero parameters leave every point where it was |
| TubesOverlay.DescendingRange | Applications/RegisterImageToTubesUsingRigidTransform/RegisterImageToTubesUsingRigidTransformTuner.py:498-500 | `range(start, stop, -1)` has `start - stop` elements (none if `start <= stop`) and its k-th element is `start - k` |
| TubesOverlay.TargetWindow | Applications/RegisterImageToTubesUsingRigidTransform/RegisterImageToTubesUsingRigidTransformTuner.py:497-500 | The target window is exactly `[i, i-1, i-2, i-3]`, strictly decreasing, and its members are the integers in `(i-4, i]` |
| TubesOverlay.DrawnIsWindowInRange | Applications/RegisterImageToTubesUsingRigidTransform/RegisterImageToTubesUsingRigidTransformTuner.py:502-503 | The iterations the loop draws are the window intersected with `[0, number_of_iterations]`: never negative, never above the count |
| TubesOverlay.AddTubesRaises | Applications/RegisterImageToTubesUsingRigidTransform/RegisterImageToTubesUsingRigidTransformTuner.py:495-569 | Raises IndexError exactly when a drawn iteration has no row in the loaded progression, and then leaves the cache untouched |
| TubesOverlay.AddTubesEntries | Applications/RegisterImageToTubesUsingRigidTransform/RegisterImageToTubesUsingRigidTransformTuner.py:495-569 | A successful call gives every drawn iteration a fresh entry built from its own parameters (overwriting, not duplicating), keeps the old entries inside the window unchanged, and evicts all others |
| TubesOverlay.CacheMatchesDrawn | Applications/RegisterImageToTubesUsingRigidTransform/RegisterImageToTubesUsingRigidTransformTuner.py:543-569 | When every cached iteration is within `[0, number_of_iterations]`, a successful call leaves exactly the drawn iterations in the cache |
| TubesOverlay.NoProgressionIsZeroTransform | Applications/RegisterImageToTubesUsingRigidTransform/RegisterImageToTubesUsingRigidTransformTuner.py:507-556 | Before any progression is loaded, each drawn iteration uses the zero parameters, its untransformed tubes coincide with the zero transform, and its marker sits at the tubes center |
| TubesOverlay.StaleEntryInsideWindowSurvives | Applications/RegisterImageToTubesUsingRigidTransform/RegisterImageToTubesUsingRigidTransformTuner.py:565-569 | With iteration 5 and count 3, a cached entry for 5 is kept next to the drawn 2 and 3, because eviction tests the window and not the range |
| Session.Start | Applications/RegisterImageToTubesUsingRigidTransform/RegisterImageToTubesUsingRigidTransformTuner.py:428-432 | The window's first `add_tubes` caches exactly iteration 0, drawn with zero parameters |
| Session.StepKeepsConsistent | Applications/RegisterImageToTubesUsingRigidTransform/RegisterImageToTubesUsingRigidTransformTuner.py:322-324 | Moving the iteration, or loading a non-empty trace whose last `Iteration` is below its row count, keeps the iteration within the count, the progression covering the count, and the cache equal to the drawn trail |
| Session.NonDenseLoadKeepsConsistent | Applications/RegisterImageToTubesUsingRigidTransform/RegisterImageToTubesUsingRigidTransformTuner.py:147-156 | A trace with a repeated `Iteration` (0, 0, 1), not dense, is an interface action and keeps the session consistent |
| Session.RunKeepsConsistent | Applications/RegisterImageToTubesUsingRigidTransform/RegisterImageToTubesUsingRigidTransformTuner.py:301-324 | Over any sequence of such interface actions the cache always holds exactly the drawn part of the current window |
| Session.ReloadAtSameIterationKeepsOldOverlays | Applications/RegisterImageToTubesUsingRigidTransform/RegisterImageToTubesUsingRigidTransformTuner.py:154-156 | Loading a trace whose last iteration is the one already shown stores the new table but leaves the overlay cache exactly as it was |
| Session.StaleOverlayExample | Applications/RegisterImageToTubesUsingRigidTransform/RegisterImageToTubesUsingRigidTransformTuner.py:154-156 | A run that stops at iteration 0 keeps showing the start-up overlay with zero parameters, although row 0 holds different ones |
| Lifecycle.Construct | Applications/RegisterImageToTubesUsingRigidTransform/RegisterImageToTubesUsingRigidTransformTuner.py:37-54 | Without `SubSampleTubeTree` the tubes path is the input path and nothing is launched or created; a missing `Sampling` raises KeyError before anything is created; otherwise the temporary file is created, and then a missing subsampler entry raises KeyError without a launch, while with the entry exactly one subsampler call (factor, input, temporary path) is launched, and exit code 0 yields the temporary path and any other raises CalledProcessError with that code; on every failure after its creation the temporary file stays on disk |
| Lifecycle.CloseRemovesOnlyOwned | Applications/RegisterImageToTubesUsingRigidTransform/RegisterImageToTubesUsingRigidTransformTuner.py:63-66 | A successful `close` removes the video-frame directory tree and, only when subsampling is configured, the subsampled file; every other path stays |
| Lifecycle.CloseKeepsInputWithoutSubsampling | Applications/RegisterImageToTubesUsingRigidTransform/RegisterImageToTubesUsingRigidTransformTuner.py:41-66 | Without subsampling the tubes path is the user's input file, and `close` leaves it on disk unless it lies inside the video-frame directory |
| Lifecycle.CloseTwiceRaises | Applications/RegisterImageToTubesUsingRigidTransform/RegisterImageToTubesUsingRigidTransformTuner.py:63-66 | After a successful `close`, a second one raises OSError on the video-frame directory |
| Lifecycle.LifecycleLeavesNoTrace | Applications/RegisterImageToTubesUsingRigidTransform/RegisterImageToTubesUsingRigidTransformTuner.py:43-66 | With fresh temporary names, constructing, initializing and closing leaves the file system exactly as it was, with or without subsampling |
| Video.PaddedDigitsRoundTrip | Applications/RegisterImageToTubesUsingRigidTransform/RegisterImageToTubesUsingRigidTransformTuner.py:615 | The zero-padded decimal form of an iteration reads back as that iteration |
| Video.FrameNamesDistinct | Applications/RegisterImageToTubesUsingRigidTransform/RegisterImageToTubesUsingRigidTransformTuner.py:614-615 | Different iterations get different frame names, and below 10000 all names have the same length |
| Video.SweepFrames | Applications/RegisterImageToTubesUsingRigidTransform/RegisterImageToTubesUsingRigidTransformTuner.py:613-621 | Frame k of the loop started at iteration i, however the loop ends, is saved under iteration i+k's name and shows iteration i+k |
| Video.SavedPathsDistinct | Applications/RegisterImageToTubesUsingRigidTransform/RegisterImageToTubesUsingRigidTransformTuner.py:614-615 | Frames of different iterations saved into one directory have different paths, so no frame overwrites another |
| Video.MakeVideo | Applications/RegisterImageToTubesUsingRigidTransform/RegisterImageToTubesUsingRigidTransformTuner.py:612-621 | The corrected sweep never raises, saves count+1 frames, frame k is saved under k's name and shows iteration k, ends at the count, its state and signals are those of calling the setter for 0..count in turn, and it is the loop `SweepFrom` run with the directory present |
| Video.SweepSignals | Applications/RegisterImageToTubesUsingRigidTransform/RegisterImageToTubesUsingRigidTransformTuner.py:613-616 | The sweep's signals are one iteration change for each of 1..count, preceded by one for 0 unless 0 was already current |
| Video.MakeVideoAsWritten | Applications/RegisterImageToTubesUsingRigidTransform/RegisterImageToTubesUsingRigidTransformTuner.py:612-616 | The loop `SweepFrom` run with the window's never-assigned directory: it raises AttributeError exactly when the count is non-negative (the loop runs at least once), and in every case leaves the state unchanged, emits nothing and saves no frame |
| Video.AsWrittenSavesNoFrame | Applications/RegisterImageToTubesUsingRigidTransform/RegisterImageToTubesUsingRigidTransformTuner.py:612-616 | From the start-up state (count 0) the code as written raises AttributeError and saves no frame, while the same loop with the logic's directory saves the frame of iteration 0 and raises nothing |

## Findings

| source | as written | input that shows it | evidently intended | confidence | as-written member | corrected member |
|---|---|---|---|---|---|---|
| Applications/RegisterImageToTubesUsingRigidTransform/RegisterImageToTubesUsingRigidTransformTuner.py:614 | `make_video` reads `self.video_frame_dir` on the main window, which never assigns it; only the logic object's `initialize` (line 57) does, so the first pass of the loop raises AttributeError | any state with `number_of_iterations >= 0`, e.g. the start-up state with count 0 | read the logic object's directory, `self.logic.video_frame_dir`, and save one frame per iteration | high; not executed | Video.MakeVideoAsWritten | Video.MakeVideo |

## Left out

- Qt and pyqtgraph: widgets, docks, sliders, the console, image planes, the
  ultrasound probe marker, `removeItem`/`addItem` on the 3D view (they pair
  one-to-one with the cache updates, so the cache stands for the scene),
  `plot_metric_values`, `add_translations` and progression colours.  Signals
  are an emitted-event list; `Session` wires only `iteration_changed` to
  `add_tubes`.
- The front of `run_analysis`: the temporary configuration file,
  `json.dump`, the analysis process and reading the table with pytables.  The
  table and the fixed parameters are inputs of `LoadTrace`.  Observations on
  that code: the exit status is ignored (line 143), the flag is spelled
  `--parameterstorestore` (line 136), the global `config` is read instead of
  `self.config` (line 135), and the analysis gets the original input tubes
  path (line 128), not the subsampled one.
- The iteration widget's feedback (lines 173-195, connected at 301-310): its
  spin box and slider forward every `valueChanged` back to the logic's
  `set_iteration`, and Qt keeps them inside `[0, maximum]`.  In the running
  tool, lowering the count below the iteration therefore pulls the iteration
  down to the count, and a negative iteration can be pulled back to 0 (the
  minimum set at lines 175 and 180).  This is not modelled:
  `TunerLogic.CountChangeDoesNotClamp` and `TunerLogic.NegativeIterationAccepted`
  describe the logic object alone.
- The numpy test `progression != None` is modelled as "a progression has been
  loaded".
- Floating point: parameters and coordinates are reals, so rounding is not
  modelled; `PureTranslationIgnoresCenter` holds exactly for reals, while in
  floating point `(p - c) + (c + t)` may differ from `p + t` in the last bits.
- Trigonometry: the degree conversion and the rotations themselves; `Track`
  follows a rotation only for points on its axis or for a zero angle, so the
  non-commutativity of the X, Y, Z rotation order is not proved.
- Tube geometry and colouring: `tubes_from_file`, tube point weights, the
  colormap and the alpha fade `exp(0.8 * (it - iteration))`.
- `make_video`'s `update`, event processing, window grab and PNG writing: a
  saved frame is its directory, the iteration its file name carries (its path
  is `Frame.Path()`), and the iteration the logic held when it was taken.
- Lifecycle.Construct: a subsampler program that cannot be started makes
  `check_call` raise OSError, which an exit code cannot express, so that case
  is not modelled.  The temporary file left behind after a failed
  subsampling is what the code does; cleaning up on failure would need a
  `try`/`except` the code does not have.
- Lifecycle.Construct: a missing `ParameterGroups` key is modelled as an empty
  group list (IndexError instead of KeyError) and a missing `Executables` key
  as a missing `SubSampleTubes` entry; the temporary name is a parameter, and
  the lemmas take its freshness as a hypothesis.
- Progression.SelectParameters: a `Parameters` field is six named reals, so a
  row with another number of values cannot be expressed; the code never checks
  the length.
- Session.RunKeepsConsistent: excludes calling `set_number_of_iterations` by
  hand from the console, and loading a trace that is empty or whose last
  `Iteration` is at or past its row count, because each of those can leave
  the cache out of step with the drawn trail (an empty trace raises before
  the count changes; a last `Iteration` past the table makes `add_tubes`
  raise for a drawn iteration with no row).  Density itself is not needed.
- Applications/CLI/SampleCLIApplication/SampleCLIApplication.cxx is not part of
  this model: it reads an image, applies a Gaussian filter and writes it back.

=== FILE: base.dfy ===
/** Shared vocabulary of the registration tuner model: optional values, the
    Python exceptions the modelled code can raise, and three-vectors. */
module Base {

  datatype Option<+T> = None | Some(value: T)

  /** The exception classes the modelled code raises, one constructor each. */
  datatype Error =
    | ValueError                          // set_iteration beyond the count
    | IndexError                          // list or numpy index out of range
    | KeyError(key: string)               // missing configuration key
    | CalledProcessError(returnCode: int) // subprocess.check_call on a non-zero exit
    | OSError(path: string)               // removing a path that does not exist
    | AttributeError(name: string)        // reading an attribute never assigned

  /** A value, or the exception raised instead of computing it. */
  datatype Result<+T> = Ok(value: T) | Err(error: Error)

  /** A point or a displacement in world coordinates.  Python floats are
      modelled as reals, so rounding is not part of the model. */
  datatype Vec3 = Vec3(x: real, y: real, z: real) {

    function Plus(other: Vec3): Vec3 {
      Vec3(x + other.x, y + other.y, z + other.z)
    }

    function Negated(): Vec3 {
      Vec3(-x, -y, -z)
    }
  }

  const Origin := Vec3(0.0, 0.0, 0.0)
}

=== FILE: lifecycle.dfy ===
/** The file lifecycle of RegistrationTunerLogic: choosing the tubes file
    (optionally subsampled into a temporary file by an external program),
    creating the video-frame directory, and the cleanup in `close`. */
module Lifecycle {
  import opened Base

  /** The `SubSampleTubeTree` section; `Sampling` may itself be absent. */
  datatype SubSampling = SubSampling(sampling: Option<string>)

  /** The parts of the JSON configuration the logic object reads.
      `parameterGroups[g]` lists the `Value` fields of group g's parameters;
      the sampling factor is kept as the text `str()` renders it. */
  datatype Config = Config(
    parameterGroups: seq<seq<string>>,
    executables: map<string, string>,
    subSampleTubeTree: Option<SubSampling>)

  /** A launched process: the program followed by its arguments. */
  type CommandLine = seq<string>

  /** What the constructor did: the processes it launched, the files it
      created, and the tubes path it settled on (or the exception). */
  datatype Construction = Construction(
    launched: seq<CommandLine>,
    created: set<string>,
    result: Result<string>)

  /** The input tubes path: the second parameter of the first group. */
  function InputTubes(config: Config): Result<string> {
    if |config.parameterGroups| == 0 || |config.parameterGroups[0]| < 2 then Err(IndexError)
    else Ok(config.parameterGroups[0][1])
  }

  /** The subsampling program's command line: factor, input path, output path. */
  function SubsampleCommand(config: Config, factor: string, input: string, tempPath: string): CommandLine
    requires "SubSampleTubes" in config.executables
  {
    [config.executables["SubSampleTubes"], "--samplingFactor", factor, input, tempPath]
  }

  /** `RegistrationTunerLogic.__init__`.  `tempPath` is the fresh name the
      temporary-file module hands out; `exitCode` is what the subsampling
      program returns.  Once the temporary file exists nothing removes it on
      failure: a constructor that raises leaves it on disk. */
  function Construct(config: Config, tempPath: string, exitCode: int): (r: Construction)
    ensures InputTubes(config).Err? ==> r == Construction([], {}, Err(IndexError))
    ensures InputTubes(config).Ok? && config.subSampleTubeTree.None? ==>
              r == Construction([], {}, Ok(InputTubes(config).value))
    ensures InputTubes(config).Ok? && config.subSampleTubeTree.Some? &&
            config.subSampleTubeTree.value.sampling.None? ==>
              r == Construction([], {}, Err(KeyError("Sampling")))
    ensures InputTubes(config).Ok? && config.subSampleTubeTree.Some? &&
            config.subSampleTubeTree.value.sampling.Some? ==>
              && r.created == {tempPath}
              && ("SubSampleTubes" !in config.executables ==>
                    r.launched == [] && r.result == Err(KeyError("SubSampleTubes")))
              && ("SubSampleTubes" in config.executables ==>
                    && r.launched == [SubsampleCommand(config, config.subSampleTubeTree.value.sampling.value,
                                                      InputTubes(config).value, tempPath)]
                    && (exitCode == 0 <==> r.result == Ok(tempPath))
                    && (exitCode != 0 <==> r.result == Err(CalledProcessError(exitCode))))
    ensures r.result.Ok? && config.subSampleTubeTree.Some? ==>
              r.result.value == tempPath && r.created == {tempPath} && |r.launched| == 1
    ensures |r.launched| <= 1
  {
    match InputTubes(config)
    case Err(e) => Construction([], {}, Err(e))
    case Ok(input) =>
      match config.subSampleTubeTree
      case None => Construction([], {}, Ok(input))
      case Some(sub) =>
        match sub.sampling
        case None => Construction([], {}, Err(KeyError("Sampling")))
        case Some(factor) =>
          if "SubSampleTubes" !in config.executables then
            Construction([], {tempPath}, Err(KeyError("SubSampleTubes")))
          else
            var cmd := SubsampleCommand(config, factor, input, tempPath);
            if exitCode != 0 then Construction([cmd], {tempPath}, Err(CalledProcessError(exitCode)))
            else Construction([cmd], {tempPath}, Ok(tempPath))
  }

  /** The paths that exist on disk. */
  type FileSystem = set<string>

  /** `path` is `dir` itself or lies below it. */
  predicate Under(dir: string, path: string) {
    path == dir || dir + "/" <= path
  }

  /** `shutil.rmtree(dir)` once `dir` is known to exist. */
  function RemoveTree(fs: FileSystem, dir: string): (r: FileSystem)
    ensures forall p :: p in r <==> p in fs && !Under(dir, p)
  {
    set p | p in fs && !Under(dir, p)
  }

  /** The logic object's file-related attributes. */
  datatype Files = Files(config: Config, subsampledTubes: string, videoFrameDir: Option<string>)

  /** `initialize`: make the video-frame directory. */
  function Initialize(f: Files, fs: FileSystem, dir: string): (Files, FileSystem) {
    (f.(videoFrameDir := Some(dir)), fs + {dir})
  }

  /** `close`: remove the video-frame directory, then the subsampled tubes
      file when the configuration asked for subsampling.  Each removal raises
      when its path is already gone, and the first exception ends the call. */
  function Close(f: Files, fs: FileSystem): (FileSystem, Option<Error>) {
    match f.videoFrameDir
    case None => (fs, Some(AttributeError("video_frame_dir")))
    case Some(dir) =>
      if dir !in fs then (fs, Some(OSError(dir)))
      else
        var rest := RemoveTree(fs, dir);
        if f.config.subSampleTubeTree.None? then (rest, None)
        else if f.subsampledTubes !in rest then (rest, Some(OSError(f.subsampledTubes)))
        else (rest - {f.subsampledTubes}, None)
  }

  /** A successful `close` removes the video-frame directory tree and, only
      when subsampling was configured, the subsampled file; nothing else. */
  lemma CloseRemovesOnlyOwned(f: Files, fs: FileSystem)
    ensures var (after, raised) := Close(f, fs);
            raised.None? ==>
              && f.videoFrameDir.Some?
              && (forall p :: p in after <==>
                    && p in fs
                    && !Under(f.videoFrameDir.value, p)
                    && (f.config.subSampleTubeTree.Some? ==> p != f.subsampledTubes))
  {
  }

  /** Without subsampling the tubes path is the user's input file and `close`
      never removes it, unless it lies inside the video-frame directory. */
  lemma {:induction false} CloseKeepsInputWithoutSubsampling(config: Config, tempPath: string, exitCode: int,
                                                           fs: FileSystem, dir: string)
    requires config.subSampleTubeTree.None?
    requires Construct(config, tempPath, exitCode).result.Ok?
    ensures var tubes := Construct(config, tempPath, exitCode).result.value;
            var (f, fs1) := Initialize(Files(config, tubes, None), fs, dir);
            tubes == InputTubes(config).value
            && (tubes in fs && !Under(dir, tubes) ==> tubes in Close(f, fs1).0)
  {
  }

  /** `close` is not idempotent: after one successful call the directory is
      gone, so a second call raises. */
  lemma CloseTwiceRaises(f: Files, fs: FileSystem)
    requires Close(f, fs).1.None?
    ensures Close(f, Close(f, fs).0).1 == Some(OSError(f.videoFrameDir.value))
  {
  }

  /** Construct, initialize and close in sequence leave the file system as
      they found it, with or without subsampling, when the temporary names
      are fresh: everything created is released and nothing else is touched. */
  lemma {:induction false} LifecycleLeavesNoTrace(config: Config, tempPath: string, exitCode: int,
                                                  fs: FileSystem, dir: string)
    requires Construct(config, tempPath, exitCode).result.Ok?
    requires tempPath !in fs && !Under(dir, tempPath)
    requires forall p :: p in fs ==> !Under(dir, p)
    ensures var c := Construct(config, tempPath, exitCode);
            var (f, fs1) := Initialize(Files(config, c.result.value, None), fs + c.created, dir);
            Close(f, fs1) == (fs, None)
  {
    var c := Construct(config, tempPath, exitCode);
    var (f, fs1) := Initialize(Files(config, c.result.value, None), fs + c.created, dir);
    assert fs1 == fs + c.created + {dir};
    var rest := RemoveTree(fs1, dir);
    assert rest == fs + c.created;
    if config.subSampleTubeTree.Some? {
      assert c.created == {tempPath} && f.subsampledTubes == tempPath;
      assert rest - {tempPath} == fs;
    } else {
      assert c.created == {};
      assert rest == fs;
      assert Close(f, fs1) == (rest, None);
    }
  }
}

=== FILE: mesh_ops.dfy ===
/** The transform `add_tubes` applies to a tubes mesh and to its center
    marker, as an ordered list of abstract mesh operations.  Each operation is
    applied in world coordinates (`local=False`), so the list order is the
    order in which points are moved. */
module MeshOps {
  import opened Base
  import opened Progression

  datatype Axis = XAxis | YAxis | ZAxis

  /** `translate(dx, dy, dz)` or `rotate(angle, axis)`.  The angle is kept in
      the parameter's own unit; the code converts radians to degrees only
      because the mesh API takes degrees. */
  datatype MeshOp = Translate(offset: Vec3) | Rotate(axis: Axis, angle: real)

  /** The operations applied to the tubes mesh of one iteration when a
      progression is loaded: move the rotation center to the origin, rotate
      about world X, then Y, then Z, then move back and translate. */
  function TubesOps(center: Vec3, p: Params): (r: seq<MeshOp>)
    ensures |r| == 5
    ensures r[0].Translate? && center.Plus(r[0].offset) == Origin
    ensures r[1].Rotate? && r[2].Rotate? && r[3].Rotate?
    ensures [r[1].axis, r[2].axis, r[3].axis] == [XAxis, YAxis, ZAxis]
    ensures [r[1].angle, r[2].angle, r[3].angle] == [p.rx, p.ry, p.rz]
    ensures r[4].Translate? && r[0].offset.Plus(r[4].offset) == p.Translation()
  {
    [ Translate(center.Negated()),
      Rotate(XAxis, p.rx),
      Rotate(YAxis, p.ry),
      Rotate(ZAxis, p.rz),
      Translate(center.Plus(p.Translation())) ]
  }

  /** The operations placing the unit-sphere center marker of one iteration. */
  function CenterMarkerOps(center: Vec3, p: Params): (r: seq<MeshOp>)
    ensures |r| == 1
  {
    [Translate(center.Plus(p.Translation()))]
  }

  /** Points on a rotation axis do not move under that rotation. */
  predicate OnAxis(a: Axis, pt: Vec3) {
    match a
    case XAxis => pt.y == 0.0 && pt.z == 0.0
    case YAxis => pt.x == 0.0 && pt.z == 0.0
    case ZAxis => pt.x == 0.0 && pt.y == 0.0
  }

  /** Where `ops` take the point `pt`, as far as that is known without
      trigonometry: translations are exact; a rotation is followed only when
      its angle is zero or the point lies on its axis, otherwise the result is
      unknown (None). */
  function Track(ops: seq<MeshOp>, pt: Vec3): Option<Vec3>
    decreases |ops|
  {
    if |ops| == 0 then Some(pt)
    else match ops[0]
      case Translate(v) => Track(ops[1..], pt.Plus(v))
      case Rotate(a, angle) =>
        if angle == 0.0 || OnAxis(a, pt) then Track(ops[1..], pt) else None
  }

  /** Whatever the rotation angles, the tubes' rotation center ends exactly
      where the center marker of the same iteration is drawn: at the center
      plus the translation parameters. */
  lemma MarkerFollowsRotationCenter(center: Vec3, p: Params)
    ensures Track(TubesOps(center, p), center) == Some(center.Plus(p.Translation()))
    ensures Track(CenterMarkerOps(center, p), Origin) == Track(TubesOps(center, p), center)
  {
    var ops := TubesOps(center, p);
    assert center.Plus(center.Negated()) == Origin;
    assert Track(ops[4..], Origin) == Some(center.Plus(p.Translation()));
    assert Track(ops[3..], Origin) == Track(ops[4..], Origin);
    assert Track(ops[2..], Origin) == Track(ops[3..], Origin);
    assert Track(ops[1..], Origin) == Track(ops[2..], Origin);
  }

  /** With no rotation the tubes move by exactly the translation parameters,
      whatever the rotation center: the center cancels out. */
  lemma PureTranslationIgnoresCenter(center: Vec3, p: Params, pt: Vec3)
    requires p.NoRotation()
    ensures Track(TubesOps(center, p), pt) == Some(pt.Plus(p.Translation()))
  {
    var ops := TubesOps(center, p);
    var moved := pt.Plus(center.Negated());
    assert moved.Plus(center.Plus(p.Translation())) == pt.Plus(p.Translation());
    assert Track(ops[1..], moved) == Track(ops[2..], moved);
    assert Track(ops[2..], moved) == Track(ops[3..], moved);
    assert Track(ops[3..], moved) == Track(ops[4..], moved);
  }

  /** All-zero parameters leave every tubes point where it was. */
  lemma ZeroParamsAreIdentity(center: Vec3, pt: Vec3)
    ensures Track(TubesOps(center, ZeroParams), pt) == Some(pt)
  {
    PureTranslationIgnoresCenter(center, ZeroParams, pt);
    assert pt.Plus(ZeroParams.Translation()) == pt;
  }
}

=== FILE: progression.dfy ===
/** The optimisation progression read back from a registration run: one
    record per iteration, and how the tuner picks the parameters to display. */
module Progression {
  import opened Base

  /** The six optimised parameters of one iteration: rotation angles (radians)
      about the world X, Y and Z axes, then a translation. */
  datatype Params = Params(rx: real, ry: real, rz: real, tx: real, ty: real, tz: real) {

    function Translation(): Vec3 {
      Vec3(tx, ty, tz)
    }

    predicate NoRotation() {
      rx == 0.0 && ry == 0.0 && rz == 0.0
    }
  }

  /** The fallback shown before any progression is loaded. */
  const ZeroParams := Params(0.0, 0.0, 0.0, 0.0, 0.0, 0.0)

  /** One row of the OptimizationParameterProgression table. */
  datatype Record = Record(iteration: int, parameters: Params, cost: real)

  /** Python's `xs[i]` on a list or a one-dimensional numpy array: a negative
      index counts from the end, anything else out of range raises. */
  function PyIndex<T>(xs: seq<T>, i: int): Result<T>
  {
    if 0 <= i < |xs| then Ok(xs[i])
    else if -|xs| <= i < 0 then Ok(xs[|xs| + i])
    else Err(IndexError)
  }

  /** The parameters `add_tubes` uses for iteration `it`: all zeros when no
      progression is loaded, otherwise the row at POSITION `it` of the table. */
  function SelectParameters(progression: Option<seq<Record>>, it: int): (r: Result<Params>)
    ensures progression.None? ==> r == Ok(ZeroParams)
    ensures progression.Some? && 0 <= it < |progression.value| ==>
              r == Ok(progression.value[it].parameters)
    ensures progression.Some? && 0 <= it ==>
              (r == Err(IndexError) <==> it >= |progression.value|)
  {
    match progression
    case None => Ok(ZeroParams)
    case Some(rows) =>
      match PyIndex(rows, it)
      case Ok(row) => Ok(row.parameters)
      case Err(e) => Err(e)
  }

  /** The table holds exactly one row per iteration 0, 1, 2, ... in order. */
  predicate Dense(rows: seq<Record>) {
    forall k :: 0 <= k < |rows| ==> rows[k].iteration == k
  }

  /** Position of the first row at or after `from` whose Iteration field is `it`:
      the lookup by iteration number the progression plot axis suggests. */
  function FindIteration(rows: seq<Record>, it: int, from: nat): (r: Option<nat>)
    requires from <= |rows|
    ensures r.Some? ==> from <= r.value < |rows| && rows[r.value].iteration == it
    ensures r.None? ==> forall k :: from <= k < |rows| ==> rows[k].iteration != it
    decreases |rows| - from
  {
    if from == |rows| then None
    else if rows[from].iteration == it then Some(from)
    else FindIteration(rows, it, from + 1)
  }

  /** In a dense table, looking up by position (what the code does) and looking
      up by Iteration field agree, including on which iterations are missing. */
  lemma {:induction false} DensePositionIsIteration(rows: seq<Record>, it: int)
    requires Dense(rows)
    requires 0 <= it
    ensures FindIteration(rows, it, 0) == (if it < |rows| then Some(it) else None)
    ensures match FindIteration(rows, it, 0)
            case Some(k) => SelectParameters(Some(rows), it) == Ok(rows[k].parameters)
            case None => SelectParameters(Some(rows), it) == Err(IndexError)
  {
    if it < |rows| {
      FindBeforeTarget(rows, it, 0);
    }
  }

  lemma {:induction false} FindBeforeTarget(rows: seq<Record>, it: nat, from: nat)
    requires Dense(rows)
    requires from <= it < |rows|
    ensures FindIteration(rows, it, from) == Some(it)
    decreases it - from
  {
    if from < it {
      assert rows[from].iteration == from;
      FindBeforeTarget(rows, it, from + 1);
    }
  }

  /** When iterations are missing from the table, the row at position `it`
      belongs to a different iteration: position 1 holds iteration 2 here. */
  lemma PositionIsNotIteration()
    ensures var rows := [Record(0, ZeroParams, 1.0), Record(2, Params(0.5, 0.0, 0.0, 1.0, 0.0, 0.0), 0.5)];
            FindIteration(rows, 1, 0) == None
            && SelectParameters(Some(rows), 1) == Ok(Params(0.5, 0.0, 0.0, 1.0, 0.0, 0.0))
  {
    var rows := [Record(0, ZeroParams, 1.0), Record(2, Params(0.5, 0.0, 0.0, 1.0, 0.0, 0.0), 0.5)];
    assert FindIteration(rows, 1, 2) == None;
    assert FindIteration(rows, 1, 1) == None;
  }
}

=== FILE: session.dfy ===
/** The logic object wired to the main window: every `iteration_changed`
    signal runs `add_tubes` on the logic's new state.  An exception in that
    slot is printed by Qt and does not reach the caller of the setter. */
module Session {
  import opened Base
  import opened Progression
  import opened TunerLogic
  import opened TubesOverlay

  /** The running tool: the logic object and the main window's overlay cache. */
  datatype Tuner = Tuner(logic: Logic, cache: Cache)

  /** The window's constructor draws the trail once, before any run. */
  function Start(): (s: Tuner)
    ensures s.logic == Initial
    ensures s.cache.Keys == {0} && s.cache[0] == OverlayFor(Initial, ZeroParams)
  {
    AddTubesRaises(Initial, map[]);
    AddTubesEntries(Initial, map[]);
    assert DrawnSet(Initial) == {0} by {
      assert 0 in DrawnSet(Initial);
    }
    Tuner(Initial, AddTubes(Initial, map[]).cache)
  }

  /** One call on the logic object, followed by the slots it triggers. */
  function AfterCommand(ses: Tuner, c: Command): Tuner {
    var r := Apply(ses.logic, c);
    var cache := if IterationChanged(r.state.iteration) in r.events
                 then AddTubes(r.state, ses.cache).cache
                 else ses.cache;
    Tuner(r.state, cache)
  }

  function RunSession(ses: Tuner, cmds: seq<Command>): Tuner
    decreases |cmds|
  {
    if |cmds| == 0 then ses else RunSession(AfterCommand(ses, cmds[0]), cmds[1..])
  }

  /** Every iteration `add_tubes` may draw has a row in the progression. */
  predicate Covered(l: Logic) {
    l.progression.None? || l.numberOfIterations < |l.progression.value|
  }

  /** The iteration is within the count, the progression covers the count,
      and the cache holds exactly the drawn part of the current window. */
  predicate Consistent(ses: Tuner) {
    && IterationWithinCount(ses.logic)
    && Covered(ses.logic)
    && ses.cache.Keys == DrawnSet(ses.logic)
  }

  /** What the user interface does: move the iteration, or load a trace whose
      last `Iteration` is below its row count, so that every iteration up to
      the new count has a row (a dense trace, numbered 0, 1, 2, ..., is one).
      Setting the count by hand from the console is excluded. */
  predicate FromInterface(c: Command) {
    || c.SetIterationCmd?
    || (c.LoadTraceCmd? && |c.records| > 0 && c.records[|c.records| - 1].iteration < |c.records|)
  }

  lemma StartConsistent()
    ensures Consistent(Start())
  {
  }

  /** Redrawing at a new iteration within a covered count leaves exactly the
      new drawn set in the cache, given a cache of non-negative iterations. */
  lemma {:induction false} RedrawKeepsCacheExact(l: Logic, cache: Cache)
    requires IterationWithinCount(l) && Covered(l)
    requires forall k :: k in cache ==> 0 <= k
    ensures AddTubes(l, cache).raised.None?
    ensures AddTubes(l, cache).cache.Keys == DrawnSet(l)
  {
    AddTubesRaises(l, cache);
    AddTubesEntries(l, cache);
    DrawnIsWindowInRange(l);
    assert !exists k :: k in DrawnSet(l) && Missing(l, k);
    forall k | k in cache && k in WindowSet(l.iteration)
      ensures k in DrawnSet(l)
    {
    }
  }

  /** Every interface action keeps the session consistent. */
  lemma {:induction false} StepKeepsConsistent(ses: Tuner, c: Command)
    requires Consistent(ses)
    requires FromInterface(c)
    ensures Consistent(AfterCommand(ses, c))
  {
    var l := ses.logic;
    var r := Apply(l, c);
    IterationChangedComesLast(l, c);
    DrawnIsWindowInRange(l);
    DrawnIsWindowInRange(r.state);
    match c
    case SetIterationCmd(v) =>
      if r.state.iteration != l.iteration {
        RedrawKeepsCacheExact(r.state, ses.cache);
      }
    case LoadTraceCmd(records, center) =>
      if r.state.iteration != l.iteration {
        RedrawKeepsCacheExact(r.state, ses.cache);
      } else {
        assert DrawnSet(r.state) == DrawnSet(l);
      }
  }

  /** Any sequence of interface actions from a consistent session keeps it
      consistent: the cache always holds exactly the drawn trail. */
  lemma {:induction false} RunKeepsConsistent(ses: Tuner, cmds: seq<Command>)
    requires Consistent(ses)
    requires forall j :: 0 <= j < |cmds| ==> FromInterface(cmds[j])
    ensures Consistent(RunSession(ses, cmds))
    decreases |cmds|
  {
    if |cmds| > 0 {
      StepKeepsConsistent(ses, cmds[0]);
      RunKeepsConsistent(AfterCommand(ses, cmds[0]), cmds[1..]);
    }
  }

  /** Density is not what the invariant needs: a trace with a repeated
      `Iteration` (0, 0, 1) still keeps the session consistent. */
  lemma NonDenseLoadKeepsConsistent()
    ensures var records := [Record(0, ZeroParams, 1.0), Record(0, ZeroParams, 0.5), Record(1, ZeroParams, 0.25)];
            && !Dense(records)
            && FromInterface(LoadTraceCmd(records, Origin))
            && Consistent(AfterCommand(Start(), LoadTraceCmd(records, Origin)))
  {
    var records := [Record(0, ZeroParams, 1.0), Record(0, ZeroParams, 0.5), Record(1, ZeroParams, 0.25)];
    assert records[1].iteration != 1;
    StartConsistent();
    StepKeepsConsistent(Start(), LoadTraceCmd(records, Origin));
  }

  /** A run whose last iteration equals the iteration already shown emits no
      iteration change, so the trail is not redrawn: the cache keeps the
      overlays of the previous progression. */
  lemma ReloadAtSameIterationKeepsOldOverlays(ses: Tuner, records: seq<Record>, center: Vec3)
    requires |records| > 0 && records[|records| - 1].iteration == ses.logic.iteration
    ensures AfterCommand(ses, LoadTraceCmd(records, center)).cache == ses.cache
    ensures AfterCommand(ses, LoadTraceCmd(records, center)).logic.progression == Some(records)
  {
  }

  /** Concretely: a run that stops at iteration 0 leaves the start-up overlay,
      drawn with zero parameters, although row 0 holds other parameters. */
  lemma StaleOverlayExample()
    ensures var p := Params(0.1, 0.0, 0.0, 2.0, 0.0, 0.0);
            var after := AfterCommand(Start(), LoadTraceCmd([Record(0, p, 1.0)], Origin));
            && after.cache[0].parameters == ZeroParams
            && SelectParameters(after.logic.progression, 0) == Ok(p)
            && p != ZeroParams
  {
  }
}

=== FILE: tubes_overlay.dfy ===
/** The overlay bookkeeping of `add_tubes`: which iterations of the fading
    trail are drawn, which parameters each uses, and the per-iteration cache of
    drawn meshes (`tubes_circles`) with its eviction rule. */
module TubesOverlay {
  import opened Base
  import opened Progression
  import opened TunerLogic
  import opened MeshOps

  /** How many iterations the trail shows, the current one included. */
  const Memory := 4

  /** Python's `range(start, stop, -1)`. */
  function DescendingRange(start: int, stop: int): (r: seq<int>)
    ensures |r| == if start > stop then start - stop else 0
    ensures forall k :: 0 <= k < |r| ==> r[k] == start - k
    decreases start - stop
  {
    if start <= stop then [] else [start] + DescendingRange(start - 1, stop)
  }

  /** `target_iterations`: the trail counts down from the current iteration. */
  function TargetIterations(current: int): seq<int> {
    DescendingRange(current, current - Memory)
  }

  predicate StrictlyDecreasing(ts: seq<int>) {
    forall a, b :: 0 <= a < b < |ts| ==> ts[a] > ts[b]
  }

  /** `k` lies in the window ending at `current`.  The comprehensions below
      name it next to the bounds it restates: Dafny needs the bounds written
      out to see that a set is finite, and a predicate application to match
      membership on. */
  predicate InWindow(current: int, k: int) {
    current - Memory < k <= current
  }

  /** The window as a set, defined by its bounds. */
  function WindowSet(current: int): set<int> {
    set k | current - Memory < k <= current && InWindow(current, k)
  }

  /** The guard `it >= 0 and it <= number_of_iterations`. */
  predicate Drawable(l: Logic, it: int) {
    0 <= it <= l.numberOfIterations
  }

  /** The iterations `add_tubes` draws: the window's members the guard admits. */
  function DrawnSet(l: Logic): set<int> {
    set k | l.iteration - Memory < k <= l.iteration && InWindow(l.iteration, k) && Drawable(l, k)
  }

  /** The trail is the current iteration and the three before it, in
      decreasing order, and nothing else. */
  lemma TargetWindow(current: int)
    ensures TargetIterations(current) == [current, current - 1, current - 2, current - 3]
    ensures StrictlyDecreasing(TargetIterations(current))
    ensures forall k :: k in TargetIterations(current) <==> k in WindowSet(current)
  {
    var ts := TargetIterations(current);
    forall k | k in WindowSet(current)
      ensures k in ts
    {
      assert ts[current - k] == k;
    }
  }

  /** The drawn iterations are the window cut to `[0, number_of_iterations]`:
      never negative and never beyond the count. */
  lemma DrawnIsWindowInRange(l: Logic)
    ensures forall k :: k in TargetIterations(l.iteration) && Drawable(l, k) <==> k in DrawnSet(l)
    ensures DrawnSet(l) <= WindowSet(l.iteration)
    ensures forall k :: k in DrawnSet(l) ==> 0 <= k <= l.numberOfIterations
  {
    TargetWindow(l.iteration);
  }

  /** What is drawn for one iteration: the parameters used, the operations on
      the tubes mesh (none without a progression) and on the center marker. */
  datatype Overlay = Overlay(parameters: Params, tubesOps: seq<MeshOp>, markerOps: seq<MeshOp>)

  function OverlayFor(l: Logic, p: Params): Overlay {
    Overlay(p,
            if l.progression.Some? then TubesOps(l.tubesCenter, p) else [],
            CenterMarkerOps(l.tubesCenter, p))
  }

  /** `tubes_circles`: iteration -> what is currently drawn for it. */
  type Cache = map<int, Overlay>

  /** The cache after the call, and the exception that escaped it, if any. */
  datatype Outcome = Outcome(cache: Cache, raised: Option<Error>)

  /** The drawing loop over `ts`, in order.  An exception leaves the entries
      made so far and skips the rest. */
  function RenderAll(l: Logic, ts: seq<int>, cache: Cache): Outcome
    decreases |ts|
  {
    if |ts| == 0 then Outcome(cache, None)
    else
      var it := ts[0];
      if Drawable(l, it) then
        match SelectParameters(l.progression, it)
        case Err(e) => Outcome(cache, Some(e))
        case Ok(p) => RenderAll(l, ts[1..], cache[it := OverlayFor(l, p)])
      else RenderAll(l, ts[1..], cache)
  }

  /** The eviction loop: drop every entry whose iteration is outside the
      window (not merely outside the drawn part of it). */
  function Evict(cache: Cache, ts: seq<int>): Cache {
    map k | k in cache && k in ts :: cache[k]
  }

  /** `add_tubes`: draw the trail, then evict; an exception while drawing
      escapes before the eviction loop runs. */
  function AddTubes(l: Logic, cache: Cache): Outcome {
    var ts := TargetIterations(l.iteration);
    var drawn := RenderAll(l, ts, cache);
    if drawn.raised.Some? then drawn else Outcome(Evict(drawn.cache, ts), None)
  }

  /** A drawable iteration for which the progression has no row. */
  predicate Missing(l: Logic, it: int) {
    l.progression.Some? && it >= |l.progression.value|
  }

  /** The drawing loop raises exactly when it meets a drawable iteration
      without a row, and then with IndexError. */
  lemma {:induction false} RenderAllRaises(l: Logic, ts: seq<int>, cache: Cache)
    ensures var r := RenderAll(l, ts, cache);
            && (r.raised.Some? <==> exists k :: k in ts && Drawable(l, k) && Missing(l, k))
            && (r.raised.Some? ==> r.raised == Some(IndexError))
    decreases |ts|
  {
    if |ts| > 0 {
      var it := ts[0];
      assert forall k :: k in ts <==> k == it || k in ts[1..];
      if Drawable(l, it) {
        match SelectParameters(l.progression, it)
        case Err(e) =>
          assert Missing(l, it);
        case Ok(p) =>
          assert !Missing(l, it);
          RenderAllRaises(l, ts[1..], cache[it := OverlayFor(l, p)]);
      } else {
        RenderAllRaises(l, ts[1..], cache);
      }
    }
  }

  /** Over a strictly decreasing list the loop is all-or-nothing: if it
      raises, it does so at the first drawn iteration, before any entry. */
  lemma {:induction false} RenderAllAtomic(l: Logic, ts: seq<int>, cache: Cache)
    requires StrictlyDecreasing(ts)
    ensures RenderAll(l, ts, cache).raised.Some? ==> RenderAll(l, ts, cache).cache == cache
    decreases |ts|
  {
    if |ts| > 0 {
      var it := ts[0];
      assert StrictlyDecreasing(ts[1..]);
      if Drawable(l, it) {
        match SelectParameters(l.progression, it)
        case Err(e) =>
        case Ok(p) =>
          assert !Missing(l, it);
          forall k | k in ts[1..]
            ensures !Missing(l, k)
          {
            var j :| 0 <= j < |ts[1..]| && ts[1..][j] == k;
            assert ts[j + 1] == k;
          }
          RenderAllRaises(l, ts[1..], cache[it := OverlayFor(l, p)]);
      } else {
        RenderAllAtomic(l, ts[1..], cache);
      }
    }
  }

  /** A loop that does not raise adds an entry for every drawable iteration,
      built from that iteration's parameters, and keeps the other entries. */
  lemma {:induction false} RenderAllEntries(l: Logic, ts: seq<int>, cache: Cache)
    ensures var r := RenderAll(l, ts, cache);
            r.raised.None? ==>
              && r.cache.Keys == cache.Keys + (set k | k in ts && Drawable(l, k))
              && (forall k :: k in ts && Drawable(l, k) ==>
                    && SelectParameters(l.progression, k) == Ok(r.cache[k].parameters)
                    && r.cache[k] == OverlayFor(l, r.cache[k].parameters))
              && (forall k :: k in cache && !(k in ts && Drawable(l, k)) ==> r.cache[k] == cache[k])
    decreases |ts|
  {
    if |ts| > 0 {
      var it := ts[0];
      assert forall k :: k in ts <==> k == it || k in ts[1..];
      var r := RenderAll(l, ts, cache);
      if Drawable(l, it) {
        match SelectParameters(l.progression, it)
        case Err(e) =>
        case Ok(p) =>
          var cache1 := cache[it := OverlayFor(l, p)];
          RenderAllEntries(l, ts[1..], cache1);
          assert r == RenderAll(l, ts[1..], cache1);
          if r.raised.None? {
            assert r.cache.Keys == cache.Keys + (set k | k in ts && Drawable(l, k));
          }
      } else {
        RenderAllEntries(l, ts[1..], cache);
        if r.raised.None? {
          assert r.cache.Keys == cache.Keys + (set k | k in ts && Drawable(l, k));
        }
      }
    }
  }

  /** The eviction loop keeps exactly the entries inside the window, unchanged. */
  lemma EvictKeepsWindow(cache: Cache, ts: seq<int>, current: int)
    requires forall k :: k in ts <==> k in WindowSet(current)
    ensures Evict(cache, ts).Keys == cache.Keys * WindowSet(current)
    ensures forall k :: k in Evict(cache, ts) ==> Evict(cache, ts)[k] == cache[k]
  {
  }

  /** `add_tubes` raises (IndexError) exactly when a drawn iteration has no
      row in the loaded progression, and then leaves the cache untouched. */
  lemma AddTubesRaises(l: Logic, cache: Cache)
    ensures var r := AddTubes(l, cache);
            && (r.raised.Some? <==> exists k :: k in DrawnSet(l) && Missing(l, k))
            && (r.raised.Some? ==> r.raised == Some(IndexError) && r.cache == cache)
  {
    var ts := TargetIterations(l.iteration);
    TargetWindow(l.iteration);
    DrawnIsWindowInRange(l);
    RenderAllRaises(l, ts, cache);
    RenderAllAtomic(l, ts, cache);
  }

  /** A successful `add_tubes` holds a fresh entry for every drawn iteration,
      made from that iteration's parameters (overwriting any old one), keeps
      the old entries still inside the window, and nothing else. */
  lemma AddTubesEntries(l: Logic, cache: Cache)
    ensures var r := AddTubes(l, cache);
            r.raised.None? ==>
              && r.cache.Keys == DrawnSet(l) + (cache.Keys * WindowSet(l.iteration))
              && (forall k :: k in DrawnSet(l) ==>
                    && SelectParameters(l.progression, k) == Ok(r.cache[k].parameters)
                    && r.cache[k] == OverlayFor(l, r.cache[k].parameters))
              && (forall k :: k in cache && k in WindowSet(l.iteration) && k !in DrawnSet(l) ==>
                    r.cache[k] == cache[k])
  {
    var ts := TargetIterations(l.iteration);
    TargetWindow(l.iteration);
    DrawnIsWindowInRange(l);
    var drawn := RenderAll(l, ts, cache);
    if drawn.raised.None? {
      RenderAllEntries(l, ts, cache);
      EvictKeepsWindow(drawn.cache, ts, l.iteration);
      var after := Evict(drawn.cache, ts);
      assert AddTubes(l, cache) == Outcome(after, None);
      assert (set k | k in ts && Drawable(l, k)) == DrawnSet(l);
      forall k | k in DrawnSet(l)
        ensures && SelectParameters(l.progression, k) == Ok(after[k].parameters)
                && after[k] == OverlayFor(l, after[k].parameters)
      {
        assert k in ts && Drawable(l, k);
      }
      forall k | k in cache && k in WindowSet(l.iteration) && k !in DrawnSet(l)
        ensures after[k] == cache[k]
      {
        assert !(k in ts && Drawable(l, k));
      }
    }
  }

  /** When every cached iteration is within `[0, number_of_iterations]`, a
      successful `add_tubes` leaves exactly the drawn iterations in the cache. */
  lemma CacheMatchesDrawn(l: Logic, cache: Cache)
    requires forall k :: k in cache ==> Drawable(l, k)
    ensures AddTubes(l, cache).raised.None? ==> AddTubes(l, cache).cache.Keys == DrawnSet(l)
  {
    AddTubesRaises(l, cache);
    AddTubesEntries(l, cache);
  }

  /** Before any progression is loaded, leaving the tubes mesh untransformed
      is the same as applying the all-zero transform: every point stays put,
      and the marker sits at the tubes center. */
  lemma NoProgressionIsZeroTransform(l: Logic, k: int, pt: Vec3)
    requires l.progression.None?
    requires k in DrawnSet(l)
    ensures var r := AddTubes(l, map[]);
            && r.raised.None?
            && k in r.cache
            && r.cache[k].parameters == ZeroParams
            && Track(r.cache[k].tubesOps, pt) == Some(pt)
            && Track(r.cache[k].tubesOps, pt) == Track(TubesOps(l.tubesCenter, ZeroParams), pt)
            && Track(r.cache[k].markerOps, Origin) == Some(l.tubesCenter)
  {
    AddTubesRaises(l, map[]);
    AddTubesEntries(l, map[]);
    ZeroParamsAreIdentity(l.tubesCenter, pt);
    assert l.tubesCenter.Plus(ZeroParams.Translation()) == l.tubesCenter;
  }

  /** Eviction tests the window, not the range check: an entry for an
      iteration inside the window but beyond the (lowered) count survives. */
  lemma StaleEntryInsideWindowSurvives(o: Overlay)
    ensures var l := Logic(5, 3, None, Origin);
            var r := AddTubes(l, map[5 := o]);
            r.raised.None? && r.cache.Keys == {2, 3, 5} && r.cache[5] == o
  {
    var l := Logic(5, 3, None, Origin);
    var ts := TargetIterations(5);
    TargetWindow(5);
    var zero := OverlayFor(l, ZeroParams);
    var drawn := RenderAll(l, ts, map[5 := o]);
    assert RenderAll(l, ts[3..], map[5 := o, 3 := zero]) == Outcome(map[5 := o, 3 := zero, 2 := zero], None);
    assert drawn == RenderAll(l, ts[1..], map[5 := o]);
    assert drawn == Outcome(map[5 := o, 3 := zero, 2 := zero], None);
    var evicted := Evict(drawn.cache, ts);
    assert evicted.Keys == {2, 3, 5};
  }
}

=== FILE: tuner_logic.dfy ===
/** The iteration-tracking state of RegistrationTunerLogic: the currently
    examined iteration, the iteration count, the loaded progression and the
    tubes' rotation center, with the signals each setter emits. */
module TunerLogic {
  import opened Base
  import opened Progression

  datatype Logic = Logic(
    iteration: int,
    numberOfIterations: int,
    progression: Option<seq<Record>>,
    tubesCenter: Vec3)

  /** The class-level defaults a fresh logic object starts from. */
  const Initial := Logic(0, 0, None, Origin)

  /** Qt signals, in the order they are emitted. */
  datatype Event =
    | IterationChanged(value: int)
    | NumberOfIterationsChanged(value: int)
    | AnalysisRun

  /** One call: the state afterwards, the signals it emitted, and the exception
      it raised, if any.  The state is kept on an exception too, because Python
      leaves whatever was assigned before the raise. */
  datatype Step = Step(state: Logic, events: seq<Event>, raised: Option<Error>)

  /** The `iteration` property setter. */
  function SetIteration(s: Logic, value: int): (r: Step)
    ensures r.raised.Some? <==> value > s.numberOfIterations
    ensures r.raised.Some? ==> r.raised == Some(ValueError) && r.state == s && r.events == []
    ensures r.raised.None? ==> r.state == s.(iteration := value)
    ensures r.events == (if r.raised.None? && value != s.iteration then [IterationChanged(value)] else [])
  {
    if value > s.numberOfIterations then Step(s, [], Some(ValueError))
    else if value != s.iteration then Step(s.(iteration := value), [IterationChanged(value)], None)
    else Step(s, [], None)
  }

  /** The `number_of_iterations` property setter: never raises, never clamps
      the current iteration. */
  function SetNumberOfIterations(s: Logic, value: int): (r: Step)
    ensures r.raised.None?
    ensures r.state == s.(numberOfIterations := value)
    ensures r.state.iteration == s.iteration && r.state.progression == s.progression
    ensures r.events == (if value != s.numberOfIterations then [NumberOfIterationsChanged(value)] else [])
  {
    if value != s.numberOfIterations then
      Step(s.(numberOfIterations := value), [NumberOfIterationsChanged(value)], None)
    else Step(s, [], None)
  }

  /** The tail of `run_analysis` once the progression table and the fixed
      parameters have been read: store both, then take the count from the last
      row and jump to it.  An empty table raises IndexError at `progression[-1]`
      after the table has already replaced the previous one. */
  function LoadTrace(s: Logic, records: seq<Record>, center: Vec3): (r: Step)
    ensures r.state.progression == Some(records) && r.state.tubesCenter == center
    ensures r.raised.Some? <==> |records| == 0
    ensures |records| == 0 ==>
              && r.raised == Some(IndexError) && r.events == []
              && r.state.iteration == s.iteration
              && r.state.numberOfIterations == s.numberOfIterations
    ensures |records| > 0 ==>
              var n := records[|records| - 1].iteration;
              && r.state.numberOfIterations == n
              && r.state.iteration == n
              && r.events ==
                   (if n != s.numberOfIterations then [NumberOfIterationsChanged(n)] else [])
                   + [AnalysisRun]
                   + (if n != s.iteration then [IterationChanged(n)] else [])
  {
    var loaded := s.(progression := Some(records), tubesCenter := center);
    match PyIndex(records, -1)
    case Err(e) => Step(loaded, [], Some(e))
    case Ok(last) =>
      var counted := SetNumberOfIterations(loaded, last.iteration);
      var jumped := SetIteration(counted.state, counted.state.numberOfIterations);
      Step(jumped.state, counted.events + [AnalysisRun] + jumped.events, jumped.raised)
  }

  /** The ways the rest of the program drives the logic object. */
  datatype Command =
    | SetIterationCmd(value: int)
    | SetNumberOfIterationsCmd(value: int)
    | LoadTraceCmd(records: seq<Record>, center: Vec3)

  function Apply(s: Logic, c: Command): Step {
    match c
    case SetIterationCmd(v) => SetIteration(s, v)
    case SetNumberOfIterationsCmd(v) => SetNumberOfIterations(s, v)
    case LoadTraceCmd(records, center) => LoadTrace(s, records, center)
  }

  /** The final state and the whole signal log of a sequence of calls; a call
      that raises does not stop the later ones (each is a separate UI action). */
  datatype Run = Run(state: Logic, events: seq<Event>)

  function RunAll(s: Logic, cmds: seq<Command>): Run
    decreases |cmds|
  {
    if |cmds| == 0 then Run(s, [])
    else
      var step := Apply(s, cmds[0]);
      var rest := RunAll(step.state, cmds[1..]);
      Run(rest.state, step.events + rest.events)
  }

  /** Running one more call appends its signals to the log. */
  lemma {:induction false} RunAllAppend(s: Logic, cmds: seq<Command>, c: Command)
    ensures var before := RunAll(s, cmds);
            var last := Apply(before.state, c);
            RunAll(s, cmds + [c]) == Run(last.state, before.events + last.events)
    decreases |cmds|
  {
    if |cmds| == 0 {
      assert cmds + [c] == [c];
    } else {
      assert (cmds + [c])[1..] == cmds[1..] + [c];
      RunAllAppend(Apply(s, cmds[0]).state, cmds[1..], c);
    }
  }

  /** An iteration-change signal is always the last one a call emits and
      carries the final iteration, so its slots see the state the call leaves. */
  lemma IterationChangedComesLast(s: Logic, c: Command)
    ensures var r := Apply(s, c);
            forall j :: 0 <= j < |r.events| && r.events[j].IterationChanged? ==>
              j == |r.events| - 1 && r.events[j] == IterationChanged(r.state.iteration)
    ensures var r := Apply(s, c);
            IterationChanged(r.state.iteration) in r.events <==> r.state.iteration != s.iteration
  {
  }

  // ---------------------------------------------------------------------------
  // Change-only emission, seen from a listener

  /** What a subscriber (the iteration spin box and slider) knows. */
  datatype View = View(iteration: int, numberOfIterations: int)

  function ViewOf(s: Logic): View {
    View(s.iteration, s.numberOfIterations)
  }

  /** The listener's knowledge after receiving one signal. */
  function Receive(v: View, e: Event): View {
    match e
    case IterationChanged(x) => v.(iteration := x)
    case NumberOfIterationsChanged(x) => v.(numberOfIterations := x)
    case AnalysisRun => v
  }

  /** The listener's knowledge after receiving `events` in order. */
  function Observe(v: View, events: seq<Event>): View
    decreases |events|
  {
    if |events| == 0 then v else Observe(Receive(v, events[0]), events[1..])
  }

  /** Every change signal in `events` carries news: it changes what the
      listener knew at that point. */
  predicate ChangeOnly(v: View, events: seq<Event>)
    decreases |events|
  {
    if |events| == 0 then true
    else
      && (match events[0]
          case IterationChanged(x) => x != v.iteration
          case NumberOfIterationsChanged(x) => x != v.numberOfIterations
          case AnalysisRun => true)
      && ChangeOnly(Receive(v, events[0]), events[1..])
  }

  lemma {:induction false} ObserveConcat(v: View, a: seq<Event>, b: seq<Event>)
    ensures Observe(v, a + b) == Observe(Observe(v, a), b)
    ensures ChangeOnly(v, a + b) <==> ChangeOnly(v, a) && ChangeOnly(Observe(v, a), b)
    decreases |a|
  {
    if |a| == 0 {
      assert a + b == b;
    } else {
      assert (a + b)[0] == a[0];
      assert (a + b)[1..] == a[1..] + b;
      ObserveConcat(Receive(v, a[0]), a[1..], b);
    }
  }

  /** Each single call keeps a synchronised listener synchronised, and every
      signal it emits is a real change. */
  lemma {:induction false} ApplyKeepsListenerInSync(s: Logic, c: Command)
    ensures Observe(ViewOf(s), Apply(s, c).events) == ViewOf(Apply(s, c).state)
    ensures ChangeOnly(ViewOf(s), Apply(s, c).events)
  {
    match c
    case SetIterationCmd(v) =>
    case SetNumberOfIterationsCmd(v) =>
    case LoadTraceCmd(records, center) =>
      var r := LoadTrace(s, records, center);
      if |records| > 0 {
        var n := records[|records| - 1].iteration;
        var a := if n != s.numberOfIterations then [NumberOfIterationsChanged(n)] else [];
        var b := if n != s.iteration then [IterationChanged(n)] else [];
        assert r.events == a + [AnalysisRun] + b;
        ObserveConcat(ViewOf(s), a, [AnalysisRun]);
        ObserveConcat(ViewOf(s), a + [AnalysisRun], b);
      }
  }

  /** A listener that starts in sync with the logic and applies the signals in
      order ends in sync after any sequence of calls, and is never told about a
      change that is not one. */
  lemma {:induction false} ListenerStaysInSync(s: Logic, cmds: seq<Command>)
    ensures Observe(ViewOf(s), RunAll(s, cmds).events) == ViewOf(RunAll(s, cmds).state)
    ensures ChangeOnly(ViewOf(s), RunAll(s, cmds).events)
    decreases |cmds|
  {
    if |cmds| > 0 {
      var step := Apply(s, cmds[0]);
      ApplyKeepsListenerInSync(s, cmds[0]);
      ListenerStaysInSync(step.state, cmds[1..]);
      ObserveConcat(ViewOf(s), step.events, RunAll(step.state, cmds[1..]).events);
    }
  }

  // ---------------------------------------------------------------------------
  // Idempotence and the iteration bound

  /** Repeating a successful `set_iteration` with the same value changes
      nothing and emits nothing. */
  lemma SetIterationIdempotent(s: Logic, value: int)
    requires value <= s.numberOfIterations
    ensures var once := SetIteration(s, value);
            SetIteration(once.state, value) == Step(once.state, [], None)
  {
  }

  /** Repeating `set_number_of_iterations` with the same value is silent. */
  lemma SetNumberOfIterationsIdempotent(s: Logic, value: int)
    ensures var once := SetNumberOfIterations(s, value);
            SetNumberOfIterations(once.state, value) == Step(once.state, [], None)
  {
  }

  /** Reloading the same table a second time only announces the run. */
  lemma LoadTraceTwice(s: Logic, records: seq<Record>, center: Vec3)
    requires |records| > 0
    ensures var once := LoadTrace(s, records, center);
            var twice := LoadTrace(once.state, records, center);
            twice.state == once.state && twice.events == [AnalysisRun]
  {
  }

  /** The current iteration never exceeds the count. */
  predicate IterationWithinCount(s: Logic) {
    s.iteration <= s.numberOfIterations
  }

  /** `set_iteration` and loading a trace keep the current iteration within
      the count, whether or not they raise. */
  lemma IterationBoundKept(s: Logic, c: Command)
    requires IterationWithinCount(s)
    requires !c.SetNumberOfIterationsCmd?
    ensures IterationWithinCount(Apply(s, c).state)
  {
  }

  /** `set_number_of_iterations` does not clamp: lowering the count below the
      current iteration leaves the iteration beyond it. */
  lemma CountChangeDoesNotClamp()
    ensures var r := SetNumberOfIterations(Logic(5, 10, None, Origin), 3);
            r.state.iteration == 5 && !IterationWithinCount(r.state)
  {
  }

  /** `set_iteration` accepts negative values. */
  lemma NegativeIterationAccepted()
    ensures SetIteration(Initial, -2) == Step(Initial.(iteration := -2), [IterationChanged(-2)], None)
  {
  }

  /** A failed load of an empty table still discards the previous progression. */
  lemma EmptyLoadDiscardsPrevious(s: Logic, center: Vec3)
    requires s.progression.Some? && |s.progression.value| > 0
    ensures var r := LoadTrace(s, [], center);
            r.raised == Some(IndexError) && r.state.progression == Some([])
            && r.state.progression != s.progression
  {
  }
}

=== FILE: video.dfy ===
/** `make_video`: sweep every iteration from 0 to the count, setting the
    logic's iteration and saving one screenshot per iteration into the
    video-frame directory. */
module Video {
  import opened Base
  import opened Progression
  import opened TunerLogic
  import opened TubesOverlay

  // ---------------------------------------------------------------------------
  // Frame file names

  predicate IsDigit(c: char) {
    '0' <= c <= '9'
  }

  predicate AllDigits(s: string) {
    forall j :: 0 <= j < |s| ==> IsDigit(s[j])
  }

  function DigitChar(d: nat): (c: char)
    requires d < 10
    ensures IsDigit(c)
  {
    ('0' as int + d) as char
  }

  function DigitValue(c: char): nat
    requires IsDigit(c)
  {
    c as int - '0' as int
  }

  /** Decimal digits of `n`, most significant first, no leading zeros. */
  function Digits(n: nat): (r: string)
    ensures 1 <= |r| && AllDigits(r)
    ensures n < 100 ==> |r| <= 2
    ensures n < 1000 ==> |r| <= 3
    ensures n < 10000 ==> |r| <= 4
    decreases n
  {
    if n < 10 then [DigitChar(n)] else Digits(n / 10) + [DigitChar(n % 10)]
  }

  /** The number a string of decimal digits denotes. */
  function Value(s: string): nat
    requires AllDigits(s)
    decreases |s|
  {
    if |s| == 0 then 0 else Value(s[..|s| - 1]) * 10 + DigitValue(s[|s| - 1])
  }

  /** `format(n, '04d')` for a non-negative `n`: pad with zeros to width 4. */
  function Pad4(s: string): (r: string)
    requires AllDigits(s)
    ensures AllDigits(r)
    ensures |r| == if |s| >= 4 then |s| else 4
  {
    if |s| >= 4 then s else seq(4 - |s|, _ => '0') + s
  }

  /** `'frame_{0:04d}.png'.format(it)`. */
  function FrameName(it: nat): string {
    "frame_" + Pad4(Digits(it)) + ".png"
  }

  lemma {:induction false} DigitsRoundTrip(n: nat)
    ensures Value(Digits(n)) == n
    decreases n
  {
    if n >= 10 {
      var d := Digits(n);
      assert d[..|d| - 1] == Digits(n / 10);
      DigitsRoundTrip(n / 10);
    }
  }

  lemma {:induction false} ZerosAreZero(z: string)
    requires forall j :: 0 <= j < |z| ==> z[j] == '0'
    ensures AllDigits(z) && Value(z) == 0
    decreases |z|
  {
    if |z| > 0 {
      ZerosAreZero(z[..|z| - 1]);
    }
  }

  lemma {:induction false} LeadingZerosIgnored(z: string, s: string)
    requires forall j :: 0 <= j < |z| ==> z[j] == '0'
    requires AllDigits(s)
    ensures AllDigits(z + s) && Value(z + s) == Value(s)
    decreases |s|
  {
    if |s| == 0 {
      assert z + s == z;
      ZerosAreZero(z);
    } else {
      assert (z + s)[..|z + s| - 1] == z + s[..|s| - 1];
      LeadingZerosIgnored(z, s[..|s| - 1]);
    }
  }

  /** The padded number reads back as the iteration it was made from. */
  lemma PaddedDigitsRoundTrip(n: nat)
    ensures Value(Pad4(Digits(n))) == n
  {
    var d := Digits(n);
    DigitsRoundTrip(n);
    if |d| < 4 {
      LeadingZerosIgnored(seq(4 - |d|, _ => '0'), d);
    }
  }

  /** Distinct iterations get distinct frame names, and below 10000 every
      name has the same length. */
  lemma FrameNamesDistinct(a: nat, b: nat)
    ensures FrameName(a) == FrameName(b) ==> a == b
    ensures a < 10000 ==> |FrameName(a)| == 14
  {
    if FrameName(a) == FrameName(b) {
      var pa := Pad4(Digits(a));
      var pb := Pad4(Digits(b));
      assert |pa| == |pb|;
      assert pa == FrameName(a)[6..6 + |pa|];
      assert pb == FrameName(b)[6..6 + |pb|];
      PaddedDigitsRoundTrip(a);
      PaddedDigitsRoundTrip(b);
    }
  }

  /** `os.path.join(dir, name)` for a relative `name`. */
  function Join(dir: string, name: string): string {
    if |dir| == 0 || dir[|dir| - 1] == '/' then dir + name else dir + "/" + name
  }

  // ---------------------------------------------------------------------------
  // The sweep

  /** A saved screenshot: the directory it went into, the iteration its file
      name carries, and the iteration the logic held when it was grabbed. */
  datatype Frame = Frame(dir: string, named: nat, shows: int)
  {
    /** `os.path.join(dir, 'frame_{0:04d}.png'.format(named))`. */
    function Path(): string {
      Join(dir, FrameName(named))
    }
  }

  /** The result of a `make_video` call. */
  datatype VideoRun = VideoRun(state: Logic, events: seq<Event>, frames: seq<Frame>, raised: Option<Error>)

  /** The setter calls the sweep makes: iterations 0, 1, ..., n - 1. */
  function SweepCommands(n: nat): seq<Command> {
    seq(n, k => SetIterationCmd(k))
  }

  /** The frame a pass for iteration `it` saves when the logic accepts `it`. */
  function SavedFrame(dir: string, it: nat): Frame {
    Frame(dir, it, it)
  }

  /** Frames saved for different iterations into the same directory have
      different paths, so no frame of a sweep overwrites another. */
  lemma SavedPathsDistinct(dir: string, a: nat, b: nat)
    ensures SavedFrame(dir, a).Path() == SavedFrame(dir, b).Path() ==> a == b
  {
    var na := FrameName(a);
    var nb := FrameName(b);
    if Join(dir, na) == Join(dir, nb) {
      var prefix := if |dir| == 0 || dir[|dir| - 1] == '/' then dir else dir + "/";
      assert Join(dir, na) == prefix + na && Join(dir, nb) == prefix + nb;
      assert na == (prefix + na)[|prefix|..];
      assert nb == (prefix + nb)[|prefix|..];
      FrameNamesDistinct(a, b);
    }
  }

  /** The signals and frames of `before` followed by the run `after`. */
  function Then(events: seq<Event>, frames: seq<Frame>, after: VideoRun): VideoRun {
    VideoRun(after.state, events + after.events, frames + after.frames, after.raised)
  }

  lemma ThenThen(e1: seq<Event>, f1: seq<Frame>, e2: seq<Event>, f2: seq<Frame>, after: VideoRun)
    ensures Then(e1, f1, Then(e2, f2, after)) == Then(e1 + e2, f1 + f2, after)
  {
  }

  /** The loop of `make_video` from iteration `it` up to `count`, the bound
      `range` fixed when the loop started.  Each pass first joins the frame
      path, reading the frame directory (`None`: the attribute does not exist,
      which raises AttributeError), then sets the logic's iteration (whose
      ValueError would end the loop) and saves a frame of what is shown. */
  function SweepFrom(s: Logic, frameDir: Option<string>, it: nat, count: int): (r: VideoRun)
    ensures |r.frames| > 0 ==> frameDir.Some?
    ensures |r.frames| <= if it <= count then count + 1 - it else 0
    decreases if it <= count then count + 1 - it else 0
  {
    if it > count then VideoRun(s, [], [], None)
    else match frameDir
      case None => VideoRun(s, [], [], Some(AttributeError("video_frame_dir")))
      case Some(dir) =>
        var step := SetIteration(s, it);
        if step.raised.Some? then VideoRun(step.state, step.events, [], step.raised)
        else
          var frame := Frame(dir, it, step.state.iteration);
          Then(step.events, [frame], SweepFrom(step.state, frameDir, it + 1, count))
  }

  /** Frame `k` of the loop started at `it` is saved under iteration
      `it + k`'s name and shows that iteration. */
  lemma {:induction false} SweepFrames(s: Logic, frameDir: Option<string>, it: nat, count: int)
    ensures forall k :: 0 <= k < |SweepFrom(s, frameDir, it, count).frames| ==>
              SweepFrom(s, frameDir, it, count).frames[k] == SavedFrame(frameDir.value, it + k)
    decreases if it <= count then count + 1 - it else 0
  {
    if it <= count && frameDir.Some? {
      var step := SetIteration(s, it);
      if step.raised.None? {
        SweepFrames(step.state, frameDir, it + 1, count);
        var rest := SweepFrom(step.state, frameDir, it + 1, count);
        var r := SweepFrom(s, frameDir, it, count);
        var later := rest.frames;
        var frames := [SavedFrame(frameDir.value, it)] + later;
        assert r.frames == frames;
        forall k | 1 <= k < |frames|
          ensures frames[k] == SavedFrame(frameDir.value, it + k)
        {
          assert frames[k] == later[k - 1];
        }
      }
    }
  }

  /** One pass of the loop with the directory present and an accepted
      iteration: its signals, then its frame, then the rest of the loop. */
  lemma SweepStep(s: Logic, dir: string, it: nat, count: int)
    requires it <= count && it <= s.numberOfIterations
    ensures var step := SetIteration(s, it);
            SweepFrom(s, Some(dir), it, count)
            == Then(step.events, [SavedFrame(dir, it)], SweepFrom(step.state, Some(dir), it + 1, count))
  {
  }

  /** One pass keeps the loop's account of the sweep: what is done so far,
      followed by the rest of the loop, is the whole loop. */
  lemma SweepLoopStep(s: Logic, dir: string, state: Logic, events: seq<Event>, frames: seq<Frame>, it: nat)
    requires it <= s.numberOfIterations && state.numberOfIterations == s.numberOfIterations
    requires SweepFrom(s, Some(dir), 0, s.numberOfIterations)
             == Then(events, frames, SweepFrom(state, Some(dir), it, s.numberOfIterations))
    ensures var step := SetIteration(state, it);
            SweepFrom(s, Some(dir), 0, s.numberOfIterations)
            == Then(events + step.events, frames + [SavedFrame(dir, it)],
                    SweepFrom(step.state, Some(dir), it + 1, s.numberOfIterations))
  {
    var step := SetIteration(state, it);
    SweepStep(state, dir, it, s.numberOfIterations);
    ThenThen(events, frames, step.events, [SavedFrame(dir, it)],
             SweepFrom(step.state, Some(dir), it + 1, s.numberOfIterations));
  }

  /** One pass extends the setter calls made so far by the call for `it`. */
  lemma SweepCommandsStep(s: Logic, state: Logic, events: seq<Event>, it: nat)
    requires RunAll(s, SweepCommands(it)) == Run(state, events)
    ensures var step := SetIteration(state, it);
            RunAll(s, SweepCommands(it + 1)) == Run(step.state, events + step.events)
  {
    RunAllAppend(s, SweepCommands(it), SetIterationCmd(it));
    assert SweepCommands(it + 1) == SweepCommands(it) + [SetIterationCmd(it)];
  }

  /** `make_video` with the frame directory read from the logic object, where
      `initialize` created it.  Every setter call succeeds, every frame shows
      the iteration its name carries, the signals are those of calling the
      setter for 0, 1, ..., count in turn, and the sweep ends at the count. */
  method MakeVideo(s: Logic, frameDir: string) returns (r: VideoRun)
    ensures r.raised.None?
    ensures |r.frames| == if s.numberOfIterations >= 0 then s.numberOfIterations + 1 else 0
    ensures forall k :: 0 <= k < |r.frames| ==> r.frames[k] == SavedFrame(frameDir, k)
    ensures s.numberOfIterations >= 0 ==> r.state == s.(iteration := s.numberOfIterations)
    ensures s.numberOfIterations < 0 ==> r.state == s && r.events == []
    ensures var sweep := RunAll(s, SweepCommands(|r.frames|));
            r.state == sweep.state && r.events == sweep.events
    ensures r == SweepFrom(s, Some(frameDir), 0, s.numberOfIterations)
  {
    var state := s;
    var events: seq<Event> := [];
    var frames: seq<Frame> := [];
    var it: nat := 0;
    while it <= s.numberOfIterations
      invariant it == |frames|
      invariant it <= s.numberOfIterations + 1 || it == 0
      invariant state.numberOfIterations == s.numberOfIterations
      invariant state == (if it == 0 then s else s.(iteration := it - 1))
      invariant RunAll(s, SweepCommands(it)) == Run(state, events)
      invariant SweepFrom(s, Some(frameDir), 0, s.numberOfIterations)
                == Then(events, frames, SweepFrom(state, Some(frameDir), it, s.numberOfIterations))
      decreases s.numberOfIterations + 1 - it
    {
      var step := SetIteration(state, it);
      SweepLoopStep(s, frameDir, state, events, frames, it);
      SweepCommandsStep(s, state, events, it);
      state := step.state;
      events := events + step.events;
      frames := frames + [Frame(frameDir, it, state.iteration)];
      it := it + 1;
    }
    r := VideoRun(state, events, frames, None);
    SweepFrames(s, Some(frameDir), 0, s.numberOfIterations);
    forall k | 0 <= k < |r.frames|
      ensures r.frames[k] == SavedFrame(frameDir, k)
    {
      assert r.frames[k] == SweepFrom(s, Some(frameDir), 0, s.numberOfIterations).frames[0 + k];
    }
  }

  /** Only the sweep's first step can be silent: the signals are one change
      per iteration 1..count, preceded by one for 0 unless 0 was current. */
  lemma {:induction false} SweepSignals(s: Logic, n: nat)
    requires n <= s.numberOfIterations + 1
    ensures RunAll(s, SweepCommands(n)).events ==
              if n == 0 then []
              else (if s.iteration != 0 then [IterationChanged(0)] else [])
                   + seq(n - 1, k => IterationChanged(k + 1))
    ensures n > 0 ==> RunAll(s, SweepCommands(n)).state == s.(iteration := n - 1)
    decreases n
  {
    if n > 0 {
      SweepSignals(s, n - 1);
      RunAllAppend(s, SweepCommands(n - 1), SetIterationCmd(n - 1));
      assert SweepCommands(n) == SweepCommands(n - 1) + [SetIterationCmd(n - 1)];
      if n > 1 {
        assert seq(n - 1, k => IterationChanged(k + 1))
            == seq(n - 2, k => IterationChanged(k + 1)) + [IterationChanged(n - 1)];
      }
    }
  }

  /** `make_video` as written: the loop body reads `self.video_frame_dir` on
      the main window, whose constructor never assigns it (only the logic
      object's `initialize` does), so the directory the loop sees is absent. */
  function MakeVideoAsWritten(s: Logic): (r: VideoRun)
    ensures r.raised == if s.numberOfIterations >= 0 then Some(AttributeError("video_frame_dir")) else None
    ensures r.state == s && r.events == [] && r.frames == []
  {
    SweepFrom(s, None, 0, s.numberOfIterations)
  }

  /** The discrepancy: from the start-up state (count 0) the loop with the
      logic's frame directory saves one frame showing iteration 0, while the
      code as written raises and saves none. */
  lemma AsWrittenSavesNoFrame(frameDir: string)
    ensures MakeVideoAsWritten(Initial).raised == Some(AttributeError("video_frame_dir"))
    ensures MakeVideoAsWritten(Initial).frames == []
    ensures SweepFrom(Initial, Some(frameDir), 0, Initial.numberOfIterations)
            == VideoRun(Initial, [], [SavedFrame(frameDir, 0)], None)
  {
  }
}
